=== FILE: README.md ===
# anchor-init, modelled in Dafny

`anchor-init <project-name>` scaffolds an Anchor (Solana) program. It turns the
name into snake case, refuses a name outside `^[a-z][a-z0-9_]*$`, refuses a
target directory that already exists, and generates a program id. It then
copies a Handlebars template tree into a new directory named after the project
and runs `anchor build` there. This project models the decision logic of that
script:

- `chars.dfy` (`Chars`): the ASCII classes `\w`, `[a-z]`, `[0-9]` and ASCII case mapping.
- `strings.dfy` (`Strings`): the string operations the script uses.
  - `replace` with a string pattern, and the first-occurrence search it performs: only the first occurrence goes.
  - `endsWith`.
  - `split(" ")` and its inverse `join`.
  - The decimal text of an exit code.
- `case_helpers.dfy` (`CaseHelpers`): the `PascalCase` and `camelCase` helpers. Each is
  modelled as the exact left-to-right scan of the global regular expression `(^\w|_\w)`.
- `project_name.dfy` (`ProjectName`): the name pattern, both as a predicate and as an
  automaton that accepts the same language.
- `templates.dfy` (`Templates`): `copyTemplates` as a pure function from the template
  tree (directories, files, other entries) to the tree it writes.
- `commands.dfy` (`Commands`): `runCommand`. The command line is split into program and
  arguments, and the call settles on the exit code.
- `cli.dfy` (`Cli`): the action. It records the order of the checks and the effects it
  has (the copy, then the build), and how it ends.

The template engine is a function parameter `render(template, context)`, and the
properties hold for every such function. The context holds the normalised project
name and the program id. `snakeCase`, the existence test, the key pair and the child
process are also parameters: a function, a set of existing names, a string, and a
function from the spawned command to its exit status.

Details of `bin/cli.js` the model keeps:

- The first `.hbs` is stripped from an entry's raw name, and the result is rendered.
- A file's content is rendered when the file's original name ends with `.hbs`.
- `PascalCase` only rewrites matches of `(^\w|_\w)`. A leading `_` is matched on its
  own and dropped, and the character after it is not upper-cased. A `__` match
  leaves one `_`.
- The existing-target check happens in the action, before `copyTemplates` is called.

## Model

| member | source | states |
|---|---|---|
| `CaseHelpers.PascalCase` | bin/cli.js:13-15 | the `PascalCase` helper as the left-to-right scan of the global `(^\w|_\w)` matches; what it computes on every input is stated by `CaseHelpers.PascalCaseByRuns` below |
| `CaseHelpers.PascalCaseByRuns` | bin/cli.js:13-15 | for every input: a leading `_` is dropped and the next character left as it is; any other first character is upper-cased; after it, each maximal run of `n` underscores keeps `n / 2` of them, and when `n` is odd the last one either goes and upper-cases the following word character or stays when none follows; all other characters are copied |
| `CaseHelpers.ScanByRuns` | bin/cli.js:14 | past index 0, the left-to-right scan of `_\w` matches equals the run-by-run reference on every input |
| `CaseHelpers.ScanRun` | bin/cli.js:14 | a run of `2k` underscores becomes `k` underscores with the next character untouched; a run of `2k+1` followed by a word character becomes `k` underscores and that character upper-cased; otherwise it becomes `k+1` underscores |
| `CaseHelpers.PascalCaseUpcasesAndDropsUnderscores` | bin/cli.js:13-15 | on every input, PascalCase's output comes from the input by deleting some underscores and upper-casing some characters, in order, inserting nothing; with underscores erased from both sides the two agree position by position up to upper-casing; which underscores stay is stated by `CaseHelpers.PascalCaseByRuns` |
| `CaseHelpers.PascalCaseWithoutUnderscores` | bin/cli.js:13-15 | a string without `_` only has its first character upper-cased |
| `CaseHelpers.PascalCaseCapitalizesWords` | bin/cli.js:13-15 | on words joined by single underscores, each underscore followed by a word character and none leading, PascalCase equals the reference "split on `_`, capitalize each word, concatenate"; the words may hold any other characters |
| `CaseHelpers.CamelCase` | bin/cli.js:17-20 | camelCase agrees with PascalCase everywhere but at the first character, which is PascalCase's first character lower-cased; `camelCase("")` is empty |
| `CaseHelpers.CamelCaseCapitalizesLaterWords` | bin/cli.js:17-20 | on such words not starting upper-case, camelCase keeps the first word and capitalizes the later ones |
| `CaseHelpers.HelperExamples` | bin/cli.js:13-20 | `PascalCase("my_project") = "MyProject"` and `camelCase("my_project") = "myProject"` |
| `CaseHelpers.RegexEdgeCases` | bin/cli.js:13-15 | a leading `_` is dropped without upper-casing the next character (`_ab` gives `ab`); `a__b` gives `A_b`, `my__app` gives `My_app`, `a___b` gives `A_B`; `ab_` gives `Ab_` |
| `ProjectName.MatchesNamePattern` | bin/cli.js:32 | the pattern test accepts exactly the names whose first character is in `a-z` and whose other characters are in `a-z0-9_` |
| `Cli.CreateProject` | bin/cli.js:27-63 | an invalid normalised name aborts with no effect, whatever exists on disk; an existing target aborts next, with no copy and no build; otherwise the templates are copied into the target with context (normalised name, program id), and then `anchor` `build` is spawned there; the run succeeds iff that build exits with 0; a failed build carries the runner's message; the exit code is 0 exactly on success |
| `Cli.HelpersOnProjectName` | bin/cli.js:13-20 | for a name that passed the gate, with no doubled or trailing underscore, PascalCase and camelCase are the word transforms of the reference |
| `Templates.CopyTemplates` | bin/cli.js:102-125 | the walk writes at most one node per entry, and exactly one per entry when the listing has only directories and files |
| `Templates.CopyPreservesShape` | bin/cli.js:105-124 | the written tree has the template tree's shape: a directory for each directory, holding the copy of its entries; one file per file; nothing for other entries |
| `Templates.DestName` | bin/cli.js:107-108 | the name an entry is written under: its raw name with the first `.hbs` removed, then rendered with the context; `Templates.CopyWritesExpectedItems` below states that the walk uses it for every name on every path |
| `Templates.DestContent` | bin/cli.js:116-121 | a file's written content: rendered with the context when the original name ends with `.hbs`, the source content otherwise; `Templates.CopyWritesExpectedItems` below states that the walk writes it for every file |
| `Templates.CopyWritesExpectedItems` | bin/cli.js:102-125 | listed parent before children, the written tree is item for item the expected image of the template tree. Every name on every path is `render(name with first ".hbs" removed, context)`, with one context at every depth. A file's content is rendered iff its own name ends with `.hbs`, and copied unchanged otherwise |
| `Templates.CopyWritesEachItem` | bin/cli.js:107-122 | the same, index by index: equal counts, renamed path, directory for directory, rendered or verbatim content by the marker rule |
| `Templates.FirstMarkerRemoved` | bin/cli.js:107 | when `x` has no `.hbs`, removing the first `.hbs` from `x + ".hbs" + y` gives `x + y`; later markers stay |
| `Templates.TrailingMarker` | bin/cli.js:107-118 | a name whose only marker is at its end is written as its stem, rendered, and its content is templated |
| `Templates.DoubleMarkerExample` | bin/cli.js:107-119 | `a.hbs.hbs` is written as `render("a.hbs")` and its content is rendered |
| `Templates.InnerMarkerExample` | bin/cli.js:107-121 | `x.hbs.txt` is written as `render("x.txt")` and its content is copied verbatim |
| `Strings.RemoveFirst` | bin/cli.js:107 | `replace` with a string pattern removes exactly the first occurrence and leaves a string without one unchanged |
| `Strings.IndexOf` | bin/cli.js:107 | the search `replace` performs for its string pattern: the index found is the first occurrence, and -1 is returned exactly when there is none |
| `Strings.Split` | bin/cli.js:72 | `split` on a one-character separator gives one more piece than there are separators, and no piece holds the separator; `Strings.JoinSplit` and `Strings.SplitJoin` below make it the inverse of `join` |
| `Strings.JoinSplit` | bin/cli.js:72 | joining the pieces of `split(" ")` with spaces gives back the command line |
| `Strings.SplitJoin` | bin/cli.js:72 | splitting a space-join of space-free pieces gives back the pieces |
| `Commands.ParseCommand` | bin/cli.js:72 | program and arguments contain no space, there are as many arguments as spaces (empty ones included), and joined back they are the command |
| `Commands.ParseJoinedCommand` | bin/cli.js:72 | the converse: a space-free program and space-free arguments, joined, parse back to themselves |
| `Commands.SplitEdgeCases` | bin/cli.js:72 | `a  b` gives program `a` and arguments `""`, `b`; the empty command gives the empty program and no arguments |
| `Commands.BuildCommandParse` | bin/cli.js:58 | `anchor build` spawns program `anchor` with the single argument `build` |
| `Commands.Settle` | bin/cli.js:75-78 | the promise resolves iff the process exited with code 0; otherwise the message holds the command verbatim and ends with the code (`null` when a signal ended the process) |
| `Commands.RejectionNamesCode` | bin/cli.js:76 | the digits at the end of a rejection message read back as the exit code |
| `Strings.DecimalRoundTrip` | bin/cli.js:76 | the decimal text of a number reads back as that number |
| `Commands.RunCommand` | bin/cli.js:70-79 | the spawn gets the given working directory and the program and arguments of `split(" ")`: space-free and joining back to the command; the promise settles by the exit handler's rule on the spawned process's exit status, so it resolves iff that process exits with 0 and otherwise rejects with the message naming the command and code |

## Left out

- Argument parsing (bin/cli.js:22-26, 68): library plumbing. The project name arrives as a parameter.
- `snakeCase` (bin/cli.js:9, 28): a library function whose source is not part of this model. It is a parameter, and only the pattern check applied after it is modelled. The "converted to snake_case" notice (bin/cli.js:29-31) is output only.
- Key pair and program id generation (bin/cli.js:46-47): external cryptography. The program id is an opaque string parameter.
- Templates.CopyTemplates: `render` is total. A Handlebars compile or runtime error would reject mid-walk and leave a partly written tree. That is not modelled, and neither is the unused name render of an `Other` entry.
- Templates.CopyTemplates: the file system is reduced to the tree written. `readdir` order is the order of the entry sequence. These are not modelled:
  - path normalisation by `path.join` (a rendered name is taken as one path segment; names that render to `""`, `..` or contain `/` are not covered);
  - two entries rendering to the same name;
  - the target directory being created only by the first write, so an empty template tree creates none;
  - `readFile` decoding a file as UTF-8 where `copy` copies raw bytes (contents are strings here).
- Commands.RunCommand: the operating-system boundary is reduced to an exit status. These are not modelled:
  - the shell, inherited stdio and live output;
  - the `error` event of a spawn that fails, for instance in a target directory an empty template tree never created. The code registers no `error` listener, so Node throws that error as an uncaught exception and the script ends with it instead of with the `anchor build failed` message.
- CaseHelpers.CamelCase: `toLowerCase` of the first character is modelled for ASCII only. For a first character outside ASCII the script lower-cases by Unicode rules and the model leaves it unchanged. Characters are Unicode scalar values here, not UTF-16 code units.
- Console messages and the printed list of next steps (bin/cli.js:49-50, 54-56, 59, 65, 82-100): output only.

=== FILE: case_helpers.dfy ===
/** The two Handlebars helpers the script registers, `PascalCase` and
    `camelCase`. Both rewrite every match of the global regular expression
    `(^\w|_\w)`: the match loses its first `_` and is upper-cased. */
module CaseHelpers {
  import opened Chars
  import opened Strings

  /** The regular-expression scan after index 0, where `^` cannot match any
      more and only the `_\w` alternative is left: a match is consumed whole,
      a non-match advances by one character. */
  function ScanUnderscores(s: string): (r: string)
    decreases |s|
  {
    if |s| >= 2 && s[0] == '_' && IsWordChar(s[1]) then
      [ToUpper(s[1])] + ScanUnderscores(s[2..])
    else if |s| == 0 then
      ""
    else
      [s[0]] + ScanUnderscores(s[1..])
  }

  /** The `PascalCase` helper. At index 0 the `^\w` alternative is tried first,
      so a leading `_` is a match of its own and is replaced by nothing. */
  function PascalCase(s: string): string
  {
    if |s| > 0 && IsWordChar(s[0]) then
      (if s[0] == '_' then "" else [ToUpper(s[0])]) + ScanUnderscores(s[1..])
    else
      ScanUnderscores(s)
  }

  /** The `camelCase` helper: `PascalCase` with its first character lower-cased. */
  function CamelCase(s: string): (r: string)
    ensures |r| == |PascalCase(s)|
    ensures forall i :: 1 <= i < |r| ==> r[i] == PascalCase(s)[i]
    ensures |r| > 0 ==> r[0] == ToLower(PascalCase(s)[0])
    ensures s == "" ==> r == ""
  {
    var pascal := PascalCase(s);
    if |pascal| == 0 then "" else [ToLower(pascal[0])] + pascal[1..]
  }

  // ---------------------------------------------------------------------------
  // What the helpers may change: underscores go, characters may be upper-cased.

  /** `s` with every underscore removed. */
  function DropUnderscores(s: string): (r: string)
    ensures '_' !in r
    ensures |r| == |s| - Count(s, '_')
    decreases |s|
  {
    if |s| == 0 then ""
    else (if s[0] == '_' then "" else [s[0]]) + DropUnderscores(s[1..])
  }

  /** `a` is `b` with some of its characters upper-cased. */
  predicate UpcasedFrom(a: string, b: string) {
    |a| == |b| && forall i :: 0 <= i < |a| ==> a[i] == b[i] || a[i] == ToUpper(b[i])
  }

  lemma UpcasedFromConcat(a1: string, b1: string, a2: string, b2: string)
    requires UpcasedFrom(a1, b1) && UpcasedFrom(a2, b2)
    ensures UpcasedFrom(a1 + a2, b1 + b2)
  {
  }

  lemma DropUnderscoresCons(c: char, t: string)
    ensures DropUnderscores([c] + t) == (if c == '_' then "" else [c]) + DropUnderscores(t)
  {
    assert ([c] + t)[1..] == t;
  }

  /** One `_\w` match keeps the relation between what is left and what it scans to. */
  lemma MatchUpcasesAndDropsUnderscore(s: string)
    requires |s| >= 2 && s[0] == '_' && IsWordChar(s[1])
    requires UpcasedFrom(DropUnderscores(ScanUnderscores(s[2..])), DropUnderscores(s[2..]))
    ensures UpcasedFrom(DropUnderscores(ScanUnderscores(s)), DropUnderscores(s))
  {
    var c := s[1];
    var t := s[2..];
    DropAfterMatch(s);
    DropBeforeMatch(s);
    if c != '_' {
      UpcasedFromConcat([ToUpper(c)], [c], DropUnderscores(ScanUnderscores(t)), DropUnderscores(t));
    }
  }

  lemma DropAfterMatch(s: string)
    requires |s| >= 2 && s[0] == '_' && IsWordChar(s[1])
    ensures DropUnderscores(ScanUnderscores(s))
         == (if s[1] == '_' then "" else [ToUpper(s[1])]) + DropUnderscores(ScanUnderscores(s[2..]))
  {
    assert ScanUnderscores(s) == [ToUpper(s[1])] + ScanUnderscores(s[2..]);
    DropUnderscoresCons(ToUpper(s[1]), ScanUnderscores(s[2..]));
  }

  lemma DropBeforeMatch(s: string)
    requires |s| >= 2 && s[0] == '_'
    ensures DropUnderscores(s) == (if s[1] == '_' then "" else [s[1]]) + DropUnderscores(s[2..])
  {
    assert s == ['_'] + s[1..] && s[1..] == [s[1]] + s[2..];
    DropUnderscoresCons('_', s[1..]);
    DropUnderscoresCons(s[1], s[2..]);
  }

  lemma {:induction false} ScanUpcasesAndDropsUnderscores(s: string)
    ensures UpcasedFrom(DropUnderscores(ScanUnderscores(s)), DropUnderscores(s))
    decreases |s|
  {
    if |s| >= 2 && s[0] == '_' && IsWordChar(s[1]) {
      ScanUpcasesAndDropsUnderscores(s[2..]);
      MatchUpcasesAndDropsUnderscore(s);
    } else if |s| > 0 {
      ScanUpcasesAndDropsUnderscores(s[1..]);
      DropUnderscoresCons(s[0], ScanUnderscores(s[1..]));
      DropUnderscoresCons(s[0], s[1..]);
      assert [s[0]] + s[1..] == s;
    }
  }

  /** `a` comes from `b` by deleting some of its underscores and upper-casing
      some of its other characters, the order kept. */
  predicate DropsAndUpcases(a: string, b: string)
    decreases |b|
  {
    if |b| == 0 then
      |a| == 0
    else
      || (b[0] == '_' && DropsAndUpcases(a, b[1..]))
      || (|a| > 0 && (a[0] == b[0] || a[0] == ToUpper(b[0])) && DropsAndUpcases(a[1..], b[1..]))
  }

  /** The relation inserts nothing: an extra leading `_` or a lower-cased
      character is not such an edit. */
  lemma DropsAndUpcasesExamples()
    ensures DropsAndUpcases("AB", "a_b")
    ensures !DropsAndUpcases("_ab", "ab")
    ensures !DropsAndUpcases("a", "A")
  {
  }

  lemma {:induction false} ScanDropsAndUpcases(s: string)
    ensures DropsAndUpcases(ScanUnderscores(s), s)
    decreases |s|
  {
    if |s| >= 2 && s[0] == '_' && IsWordChar(s[1]) {
      var r := [ToUpper(s[1])] + ScanUnderscores(s[2..]);
      ScanDropsAndUpcases(s[2..]);
      assert r[1..] == ScanUnderscores(s[2..]) && s[1..][1..] == s[2..];
      assert DropsAndUpcases(r, s[1..]);
    } else if |s| > 0 {
      var r := [s[0]] + ScanUnderscores(s[1..]);
      ScanDropsAndUpcases(s[1..]);
      assert r[1..] == ScanUnderscores(s[1..]);
    }
  }

  /** Whatever the input, `PascalCase` only deletes underscores and upper-cases
      characters, in order: it inserts nothing and moves nothing. So once
      underscores are erased from both sides, the output is the input with
      some characters upper-cased, and the output is shorter than the input
      by exactly the underscores it lost. Which underscores stay is stated by
      `PascalCaseByRuns` below. */
  lemma {:induction false} PascalCaseUpcasesAndDropsUnderscores(s: string)
    ensures DropsAndUpcases(PascalCase(s), s)
    ensures UpcasedFrom(DropUnderscores(PascalCase(s)), DropUnderscores(s))
    ensures |PascalCase(s)| == |s| - (Count(s, '_') - Count(PascalCase(s), '_'))
  {
    PascalCaseDropsAndUpcases(s);
    PascalCaseUpcasesAfterErasing(s);
  }

  lemma PascalCaseDropsAndUpcases(s: string)
    ensures DropsAndUpcases(PascalCase(s), s)
  {
    if |s| > 0 && IsWordChar(s[0]) {
      ScanDropsAndUpcases(s[1..]);
      if s[0] == '_' {
        assert PascalCase(s) == ScanUnderscores(s[1..]);
      } else {
        var r := [ToUpper(s[0])] + ScanUnderscores(s[1..]);
        assert PascalCase(s) == r && r[1..] == ScanUnderscores(s[1..]);
      }
    } else {
      ScanDropsAndUpcases(s);
    }
  }

  lemma {:induction false} PascalCaseUpcasesAfterErasing(s: string)
    ensures UpcasedFrom(DropUnderscores(PascalCase(s)), DropUnderscores(s))
    ensures |PascalCase(s)| == |s| - (Count(s, '_') - Count(PascalCase(s), '_'))
  {
    if |s| > 0 && IsWordChar(s[0]) {
      var head := if s[0] == '_' then "" else [ToUpper(s[0])];
      ScanUpcasesAndDropsUnderscores(s[1..]);
      DropUnderscoresCons(s[0], s[1..]);
      assert [s[0]] + s[1..] == s;
      if s[0] == '_' {
        assert PascalCase(s) == ScanUnderscores(s[1..]);
      } else {
        DropUnderscoresCons(ToUpper(s[0]), ScanUnderscores(s[1..]));
        UpcasedFromConcat(head, [s[0]], DropUnderscores(ScanUnderscores(s[1..])), DropUnderscores(s[1..]));
      }
    } else {
      ScanUpcasesAndDropsUnderscores(s);
    }
  }

  /** Without underscores, the scan after index 0 never matches. */
  lemma {:induction false} ScanWithoutUnderscores(s: string)
    requires '_' !in s
    ensures ScanUnderscores(s) == s
    decreases |s|
  {
    if |s| > 0 {
      ScanWithoutUnderscores(s[1..]);
      assert [s[0]] + s[1..] == s;
    }
  }

  /** The first character upper-cased, the rest untouched. */
  function Capitalize(w: string): (r: string)
    ensures |r| == |w|
    ensures |w| > 0 ==> r[0] == ToUpper(w[0]) && r[1..] == w[1..]
  {
    if |w| == 0 then w else [ToUpper(w[0])] + w[1..]
  }

  /** A string without underscores only has its first character upper-cased:
      the one match of `(^\w|_\w)` is at index 0, if anywhere. */
  lemma PascalCaseWithoutUnderscores(s: string)
    requires '_' !in s
    ensures PascalCase(s) == Capitalize(s)
  {
    if |s| > 0 {
      ScanWithoutUnderscores(s[1..]);
      if !IsWordChar(s[0]) {
        ScanWithoutUnderscores(s);
      }
    }
  }

  // ---------------------------------------------------------------------------
  // Reference: split on underscores, capitalize the words, concatenate.

  /** The words concatenated, each capitalized. */
  function ConcatCapitalized(words: seq<string>): string
  {
    if |words| == 0 then "" else Capitalize(words[0]) + ConcatCapitalized(words[1..])
  }

  /** Every underscore of `s` is followed by a word character other than `_`,
      so every underscore is one match of `_\w` on its own. */
  predicate UnderscoresStartWords(s: string) {
    forall i :: 0 <= i < |s| && s[i] == '_' ==> i + 1 < |s| && IsWordChar(s[i + 1]) && s[i + 1] != '_'
  }

  /** `s` is words joined by single underscores, with no underscore at either
      end and every word after the first starting with a word character: the
      shape of a project name such as `my_project`. */
  predicate SnakeWords(s: string) {
    UnderscoresStartWords(s) && (|s| > 0 ==> s[0] != '_')
  }

  /** Dropping a prefix keeps every underscore followed by a word. */
  lemma WordsAfterDrop(u: string, k: nat)
    requires k <= |u|
    requires UnderscoresStartWords(u)
    ensures UnderscoresStartWords(u[k..])
  {
    forall i | 0 <= i < |u[k..]| && u[k..][i] == '_'
      ensures i + 1 < |u[k..]| && IsWordChar(u[k..][i + 1]) && u[k..][i + 1] != '_'
    {
      assert u[k + i] == '_';
    }
  }

  /** A first character other than `_` is upper-cased (which leaves a
      non-word character as it is), and the scan takes over after it. */
  lemma PascalCaseHead(s: string)
    requires |s| > 0 && s[0] != '_'
    ensures PascalCase(s) == [ToUpper(s[0])] + ScanUnderscores(s[1..])
  {
    if !IsWordChar(s[0]) {
      assert ToUpper(s[0]) == s[0];
    }
  }

  /** The first word kept as it is, the later ones capitalized. */
  function CapitalizeLaterWords(words: seq<string>): string
    requires |words| >= 1
  {
    words[0] + ConcatCapitalized(words[1..])
  }

  lemma CapitalizeLaterWordsEmptyFirst(words: seq<string>)
    requires |words| >= 1
    ensures CapitalizeLaterWords([""] + words) == ConcatCapitalized(words)
  {
    assert ([""] + words)[1..] == words;
  }

  lemma ExtendFirstWord(c: char, words: seq<string>)
    requires |words| >= 1
    ensures CapitalizeLaterWords([[c] + words[0]] + words[1..]) == [c] + CapitalizeLaterWords(words)
    ensures ConcatCapitalized([[c] + words[0]] + words[1..]) == [ToUpper(c)] + CapitalizeLaterWords(words)
  {
    var later := ConcatCapitalized(words[1..]);
    assert CapitalizeLaterWords(words) == words[0] + later;
    KeepFirstWord([c] + words[0], words[1..]);
    AppendAssoc([c], words[0], later);
    CapitalizeFirstWord(c, words[0], words[1..]);
  }

  lemma KeepFirstWord(first: string, later: seq<string>)
    ensures CapitalizeLaterWords([first] + later) == first + ConcatCapitalized(later)
  {
    assert ([first] + later)[1..] == later;
  }

  lemma CapitalizeFirstWord(c: char, w: string, later: seq<string>)
    ensures ConcatCapitalized([[c] + w] + later) == [ToUpper(c)] + (w + ConcatCapitalized(later))
  {
    ConcatCapitalizedCons([c] + w, later);
    CapitalizeCons(c, w);
  }

  lemma ConcatCapitalizedCons(w: string, later: seq<string>)
    ensures ConcatCapitalized([w] + later) == Capitalize(w) + ConcatCapitalized(later)
  {
    assert ([w] + later)[0] == w && ([w] + later)[1..] == later;
  }

  lemma CapitalizeCons(c: char, w: string)
    ensures Capitalize([c] + w) == [ToUpper(c)] + w
  {
    assert ([c] + w)[1..] == w;
  }

  lemma {:induction false} ScanCapitalizesWords(u: string)
    requires UnderscoresStartWords(u)
    ensures ScanUnderscores(u) == CapitalizeLaterWords(Split(u, '_'))
    decreases |u|
  {
    if |u| == 0 {
    } else if u[0] == '_' {
      var c := u[1];
      assert u[1..][1..] == u[2..];
      WordsAfterDrop(u, 2);
      ScanCapitalizesWords(u[2..]);
      SplitSep(u, '_');
      CapitalizeLaterWordsEmptyFirst(Split(u[1..], '_'));
      SplitCons(u[1..], '_');
      ExtendFirstWord(c, Split(u[2..], '_'));
      assert ScanUnderscores(u) == [ToUpper(c)] + ScanUnderscores(u[2..]);
    } else {
      WordsAfterDrop(u, 1);
      ScanCapitalizesWords(u[1..]);
      SplitCons(u, '_');
      ExtendFirstWord(u[0], Split(u[1..], '_'));
    }
  }

  /** On words joined by single underscores, `PascalCase` is "split on `_`,
      capitalize each word, concatenate". The words may hold any characters;
      only an underscore's neighbour matters. */
  lemma {:induction false} PascalCaseCapitalizesWords(s: string)
    requires SnakeWords(s)
    ensures PascalCase(s) == ConcatCapitalized(Split(s, '_'))
  {
    if |s| > 0 {
      WordsAfterDrop(s, 1);
      ScanCapitalizesWords(s[1..]);
      SplitCons(s, '_');
      ExtendFirstWord(s[0], Split(s[1..], '_'));
      PascalCaseHead(s);
    }
  }

  /** On words joined by single underscores, not starting upper-case,
      `camelCase` keeps the first word as it is and capitalizes the others. */
  lemma {:induction false} CamelCaseCapitalizesLaterWords(s: string)
    requires SnakeWords(s)
    requires |s| > 0 ==> !IsUpper(s[0])
    ensures CamelCase(s) == CapitalizeLaterWords(Split(s, '_'))
  {
    if |s| > 0 {
      WordsAfterDrop(s, 1);
      ScanCapitalizesWords(s[1..]);
      SplitCons(s, '_');
      ExtendFirstWord(s[0], Split(s[1..], '_'));
      var tail := ScanUnderscores(s[1..]);
      var pascal := [ToUpper(s[0])] + tail;
      PascalCaseHead(s);
      assert pascal[1..] == tail;
      LowerUndoesUpper(s[0]);
    }
  }

  // ---------------------------------------------------------------------------
  // Reference for every input: what the scan does to each maximal run of
  // underscores.

  /** `n` underscores. */
  function Underscores(n: nat): (r: string)
    ensures |r| == n
    ensures forall i :: 0 <= i < n ==> r[i] == '_'
  {
    if n == 0 then "" else "_" + Underscores(n - 1)
  }

  /** The length of the run of underscores `s` starts with. */
  function LeadingUnderscores(s: string): (n: nat)
    ensures n <= |s|
    ensures forall i :: 0 <= i < n ==> s[i] == '_'
    ensures n < |s| ==> s[n] != '_'
    decreases |s|
  {
    if |s| > 0 && s[0] == '_' then 1 + LeadingUnderscores(s[1..]) else 0
  }

  /** The run-by-run reference. Of a maximal run of `n` underscores, `n / 2`
      stay. When `n` is odd, one more goes and upper-cases the word character
      after the run, or stays when no word character follows. Every other
      character is copied. */
  function ByRuns(s: string): string
    decreases |s|
  {
    if |s| == 0 then ""
    else if s[0] != '_' then [s[0]] + ByRuns(s[1..])
    else
      var n := LeadingUnderscores(s);
      var rest := s[n..];
      if n % 2 == 0 then Underscores(n / 2) + ByRuns(rest)
      else if |rest| > 0 && IsWordChar(rest[0]) then Underscores(n / 2) + [ToUpper(rest[0])] + ByRuns(rest[1..])
      else Underscores(n / 2 + 1) + ByRuns(rest)
  }

  /** A character other than `_` is copied by the scan. */
  lemma ScanCopy(c: char, t: string)
    requires c != '_'
    ensures ScanUnderscores([c] + t) == [c] + ScanUnderscores(t)
  {
    assert ([c] + t)[1..] == t;
  }

  /** A `__` match leaves one underscore. */
  lemma ScanPair(t: string)
    ensures ScanUnderscores("__" + t) == "_" + ScanUnderscores(t)
  {
    assert ("__" + t)[2..] == t;
  }

  /** A lone `_` starts a `_\w` match with a word character after it and is
      copied otherwise. */
  lemma ScanSingle(rest: string)
    requires |rest| > 0 ==> rest[0] != '_'
    ensures |rest| > 0 && IsWordChar(rest[0]) ==> ScanUnderscores("_" + rest) == [ToUpper(rest[0])] + ScanUnderscores(rest[1..])
    ensures !(|rest| > 0 && IsWordChar(rest[0])) ==> ScanUnderscores("_" + rest) == "_" + ScanUnderscores(rest)
  {
    var s := "_" + rest;
    assert s[1..] == rest;
    if |rest| > 0 {
      assert s[2..] == rest[1..];
    }
  }

  /** One more pair of underscores in front adds a `__` match. */
  lemma UnderscoresPair(k: nat, x: string)
    ensures Underscores(2 * k + 2) + x == "__" + (Underscores(2 * k) + x)
    ensures Underscores(k + 1) == "_" + Underscores(k)
  {
    assert Underscores(2 * k + 2) == "_" + ("_" + Underscores(2 * k));
  }

  /** An even run of underscores pairs up into `__` matches, each leaving one
      `_`, whatever follows it. */
  lemma {:induction false} ScanEvenRun(k: nat, x: string)
    ensures ScanUnderscores(Underscores(2 * k) + x) == Underscores(k) + ScanUnderscores(x)
    decreases k
  {
    if k == 0 {
      assert Underscores(0) + x == x;
    } else {
      var t := Underscores(2 * (k - 1)) + x;
      ScanEvenRun(k - 1, x);
      UnderscoresPair(k - 1, x);
      ScanPair(t);
    }
  }

  /** Runs of underscores concatenate. */
  lemma UnderscoresAppend(a: nat, b: nat)
    ensures Underscores(a + b) == Underscores(a) + Underscores(b)
  {
    assert forall i :: 0 <= i < a + b ==> (Underscores(a) + Underscores(b))[i] == '_';
  }

  /** An odd run: its pairs each leave one `_`, and the last underscore either
      starts a `_\w` match with the word character after the run or is copied. */
  lemma ScanOddRun(k: nat, rest: string)
    requires |rest| > 0 ==> rest[0] != '_'
    ensures |rest| > 0 && IsWordChar(rest[0]) ==>
              ScanUnderscores(Underscores(2 * k + 1) + rest) == Underscores(k) + [ToUpper(rest[0])] + ScanUnderscores(rest[1..])
    ensures !(|rest| > 0 && IsWordChar(rest[0])) ==>
              ScanUnderscores(Underscores(2 * k + 1) + rest) == Underscores(k + 1) + ScanUnderscores(rest)
  {
    var t := "_" + rest;
    assert Underscores(1) == "_";
    UnderscoresAppend(2 * k, 1);
    assert Underscores(2 * k + 1) + rest == Underscores(2 * k) + t;
    ScanEvenRun(k, t);
    ScanSingle(rest);
    if !(|rest| > 0 && IsWordChar(rest[0])) {
      UnderscoresAppend(k, 1);
      assert Underscores(k) + ("_" + ScanUnderscores(rest)) == Underscores(k + 1) + ScanUnderscores(rest);
    }
  }

  /** The scan on a maximal run of `n` underscores: its pairs each leave one
      `_`, and an odd one left over either starts a `_\w` match with the word
      character after the run or is copied. */
  lemma ScanRun(n: nat, rest: string)
    requires |rest| > 0 ==> rest[0] != '_'
    ensures n % 2 == 0 ==>
              ScanUnderscores(Underscores(n) + rest) == Underscores(n / 2) + ScanUnderscores(rest)
    ensures n % 2 == 1 && |rest| > 0 && IsWordChar(rest[0]) ==>
              ScanUnderscores(Underscores(n) + rest) == Underscores(n / 2) + [ToUpper(rest[0])] + ScanUnderscores(rest[1..])
    ensures n % 2 == 1 && !(|rest| > 0 && IsWordChar(rest[0])) ==>
              ScanUnderscores(Underscores(n) + rest) == Underscores(n / 2 + 1) + ScanUnderscores(rest)
  {
    var k := n / 2;
    if n % 2 == 0 {
      assert n == 2 * k;
      ScanEvenRun(k, rest);
    } else {
      assert n == 2 * k + 1;
      ScanOddRun(k, rest);
    }
  }

  /** After index 0, the scan of `(^\w|_\w)` is the run-by-run reference, for every input. */
  lemma {:induction false} ScanByRuns(s: string)
    ensures ScanUnderscores(s) == ByRuns(s)
    decreases |s|
  {
    if |s| == 0 {
    } else if s[0] != '_' {
      ScanByRuns(s[1..]);
    } else {
      var n := LeadingUnderscores(s);
      var rest := s[n..];
      assert s == Underscores(n) + rest;
      ScanRun(n, rest);
      ScanByRuns(rest);
      if |rest| > 0 {
        ScanByRuns(rest[1..]);
      }
    }
  }

  /** `PascalCase` on every input: a leading underscore goes without touching
      what follows, any other first character is upper-cased, and the rest
      follows the run-by-run reference. */
  lemma PascalCaseByRuns(s: string)
    ensures PascalCase(s) ==
              if |s| == 0 then ""
              else if s[0] == '_' then ByRuns(s[1..])
              else [ToUpper(s[0])] + ByRuns(s[1..])
  {
    if |s| > 0 {
      ScanByRuns(s[1..]);
      if s[0] != '_' {
        PascalCaseHead(s);
      }
    }
  }

  /** The helpers on a typical project name. */
  lemma HelperExamples()
    ensures PascalCase("my_project") == "MyProject"
    ensures CamelCase("my_project") == "myProject"
  {
    PascalCaseProjectExample();
    assert ToLower('M') == 'm';
  }

  lemma PascalCaseProjectExample()
    ensures PascalCase("my_project") == "MyProject"
  {
    var s := "my_project";
    PascalCaseHead(s);
    assert s[1..] == "y_project";
    ScanProjectExample();
  }

  lemma ScanProjectExample()
    ensures ScanUnderscores("y_project") == "yProject"
  {
    ScanProjectTail();
    ScanCopy('y', "_project");
    assert "y_project" == ['y'] + "_project";
    assert "yProject" == ['y'] + "Project";
  }

  lemma ScanProjectTail()
    ensures ScanUnderscores("_project") == "Project"
  {
    var w := "project";
    ScanWithoutUnderscores(w[1..]);
    ScanSingle(w);
    assert "_project" == "_" + w;
    assert "Project" == [ToUpper(w[0])] + w[1..];
  }

  /** The edge cases of the regular expression: a leading underscore is
      dropped without upper-casing what follows, a `__` match keeps one of
      its underscores, and a trailing underscore stays. */
  lemma RegexEdgeCases()
    ensures PascalCase("_ab") == "ab"
    ensures PascalCase("a__b") == "A_b"
    ensures PascalCase("ab_") == "Ab_"
    ensures PascalCase("my__app") == "My_app"
    ensures PascalCase("a___b") == "A_B"
    ensures CamelCase("") == ""
  {
    DoubledUnderscoreExamples();
  }

  lemma DoubledUnderscoreExamples()
    ensures PascalCase("my__app") == "My_app"
    ensures PascalCase("a___b") == "A_B"
  {
    var s := "my__app";
    PascalCaseHead(s);
    assert s[1..] == ['y'] + ("__" + "app");
    ScanCopy('y', "__" + "app");
    ScanPair("app");
    ScanWithoutUnderscores("app");
    assert ToUpper('m') == 'M';
    var u := "a___b";
    PascalCaseHead(u);
    assert u[1..] == "__" + ("_" + "b");
    ScanPair("_" + "b");
    ScanSingle("b");
    assert ToUpper('a') == 'A' && ToUpper('b') == 'B';
  }
}

=== FILE: chars.dfy ===
/** ASCII character classes as an ECMAScript regular expression without the
    `u` flag sees them, and the case mappings the command-line script applies
    to the characters those classes match. */
module Chars {

  predicate IsLower(c: char) { 'a' <= c <= 'z' }

  predicate IsUpper(c: char) { 'A' <= c <= 'Z' }

  predicate IsDigit(c: char) { '0' <= c <= '9' }

  /** The class `\w`: ASCII letters, ASCII digits and the underscore. */
  predicate IsWordChar(c: char) {
    IsLower(c) || IsUpper(c) || IsDigit(c) || c == '_'
  }

  /** `toUpperCase` restricted to ASCII: only `a`-`z` change. */
  function ToUpper(c: char): (r: char)
    ensures !IsLower(r)
    ensures IsLower(c) || r == c
    ensures IsWordChar(r) <==> IsWordChar(c)
    ensures r == '_' <==> c == '_'
  {
    if IsLower(c) then (c as int - 32) as char else c
  }

  /** `toLowerCase` restricted to ASCII: only `A`-`Z` change. */
  function ToLower(c: char): (r: char)
    ensures !IsUpper(r)
    ensures IsUpper(c) || r == c
  {
    if IsUpper(c) then (c as int + 32) as char else c
  }

  /** Lower-casing undoes upper-casing on every character that was not
      upper-case to begin with. */
  lemma LowerUndoesUpper(c: char)
    requires !IsUpper(c)
    ensures ToLower(ToUpper(c)) == c
  {
  }
}

=== FILE: cli.dfy ===
/** The `anchor-init <project-name>` action: normalise and check the name,
    refuse an existing target, copy the templates into a new directory named
    after the project, and build it. The model records what the action does
    to the outside world, in order, and how it ends. */
module Cli {
  import opened Chars
  import opened Strings
  import opened CaseHelpers
  import opened ProjectName
  import opened Templates
  import opened Commands

  /** The one command the action runs in the new project. */
  const BuildCommand: string := "anchor build"

  /** An action with an effect outside the script. */
  datatype Effect =
    | WriteTree(target: string, tree: seq<Node>)   // the template copy into `target`
    | RunProcess(spawn: Spawn)                     // a spawned child process

  /** How a run ends. Every status but `Created` exits the process with code 1. */
  datatype Status =
    | InvalidName
    | TargetExists
    | BuildFailed(message: string)
    | Created

  /** What spawning the build in the project directory `name` hands to the system. */
  function BuildSpawn(name: string): Spawn {
    Spawn(Invocation("anchor", ["build"]), name)
  }

  /** The effects of a run that passes both checks: the copy, then the build. */
  function ProceedEffects(name: string, programId: string, templates: seq<Entry>, render: Renderer): seq<Effect> {
    [WriteTree(name, CopyTemplates(templates, Context(name, programId), render)), RunProcess(BuildSpawn(name))]
  }

  /** The action. `snakeCase` is the name normaliser of a library outside the
      model; `existing` is the set of names already present in the working
      directory; `programId` is the generated program identifier; `exitOf`
      says how a spawned process ends. */
  method CreateProject(originalName: string, snakeCase: string -> string, existing: set<string>,
                       programId: string, templates: seq<Entry>, render: Renderer,
                       exitOf: Spawn -> ExitStatus)
    returns (effects: seq<Effect>, status: Status, exitCode: int)
    // A name outside the pattern aborts first, whatever is on disk.
    ensures status == InvalidName <==> !ValidName(snakeCase(originalName))
    // An existing target aborts next.
    ensures status == TargetExists <==> ValidName(snakeCase(originalName)) && snakeCase(originalName) in existing
    // Neither abort touches anything: no copy, no build.
    ensures status == InvalidName || status == TargetExists <==> effects == []
    // Otherwise the templates are copied with the normalised name, then built there.
    ensures effects != [] ==> effects == ProceedEffects(snakeCase(originalName), programId, templates, render)
    ensures status == Created <==>
              && ValidName(snakeCase(originalName))
              && snakeCase(originalName) !in existing
              && exitOf(BuildSpawn(snakeCase(originalName))) == Exited(0)
    ensures status.BuildFailed? ==>
              status == BuildFailed(Settle(BuildCommand, exitOf(BuildSpawn(snakeCase(originalName)))).message)
    ensures exitCode == 0 <==> status == Created
    ensures exitCode == 0 || exitCode == 1
  {
    var name := snakeCase(originalName);
    var ok := MatchesNamePattern(name);
    if !ok {
      return [], InvalidName, 1;
    }
    if name in existing {
      return [], TargetExists, 1;
    }
    var tree := CopyTemplates(templates, Context(name, programId), render);
    var (spawn, outcome) := RunCommand(BuildCommand, name, exitOf);
    BuildCommandParse();
    assert spawn == BuildSpawn(name);
    effects := [WriteTree(name, tree), RunProcess(spawn)];
    match outcome {
      case Resolved =>
        status, exitCode := Created, 0;
      case Rejected(message) =>
        status, exitCode := BuildFailed(message), 1;
    }
  }

  /** No two underscores in a row. */
  predicate NoDoubleUnderscore(s: string) {
    forall i :: 0 <= i < |s| - 1 && s[i] == '_' ==> s[i + 1] != '_'
  }

  /** On a project name that passed the gate, has no doubled underscore and
      does not end with one, the helpers the templates use are the familiar
      word transforms: `PascalCase` capitalizes every word, `camelCase` every
      word but the first, and both drop the underscores. */
  lemma HelpersOnProjectName(name: string)
    requires ValidName(name)
    requires NoDoubleUnderscore(name)
    requires name[|name| - 1] != '_'
    ensures PascalCase(name) == ConcatCapitalized(Split(name, '_'))
    ensures CamelCase(name) == CapitalizeLaterWords(Split(name, '_'))
  {
    assert forall i :: 0 <= i < |name| ==> IsWordChar(name[i]);
    assert UnderscoresStartWords(name);
    PascalCaseCapitalizesWords(name);
    CamelCaseCapitalizesLaterWords(name);
  }
}

=== FILE: commands.dfy ===
/** `runCommand(command, cwd)`: split the command line on spaces into a
    program and its arguments, spawn it, and settle on its exit code. The
    process itself is outside the model: its exit status is supplied by the
    caller as a function of what was spawned. */
module Commands {
  import opened Chars
  import opened Strings

  /** A program and its arguments. */
  datatype Invocation = Invocation(program: string, args: seq<string>)

  /** What is handed to the operating system. */
  datatype Spawn = Spawn(invocation: Invocation, cwd: string)

  /** How the child process ended: with an exit code, or by a signal, in
      which case the exit event reports a null code. */
  datatype ExitStatus = Exited(code: int) | Signalled

  /** How the promise returned by `runCommand` settles. */
  datatype Outcome = Resolved | Rejected(message: string)

  /** `const [cmd, ...args] = command.split(" ")`: the program is the text
      before the first space, every further space starts a new argument,
      empty ones included. Joining them back with single spaces gives the
      command line again, so nothing of it is lost. */
  function ParseCommand(command: string): (inv: Invocation)
    ensures Join([inv.program] + inv.args, ' ') == command
    ensures ' ' !in inv.program
    ensures forall i :: 0 <= i < |inv.args| ==> ' ' !in inv.args[i]
    ensures |inv.args| == Count(command, ' ')
  {
    var parts := Split(command, ' ');
    JoinSplit(command, ' ');
    assert [parts[0]] + parts[1..] == parts;
    Invocation(parts[0], parts[1..])
  }

  /** The converse: a program and arguments without spaces, joined by single
      spaces, parse back to themselves. */
  lemma ParseJoinedCommand(program: string, args: seq<string>)
    requires ' ' !in program
    requires forall i :: 0 <= i < |args| ==> ' ' !in args[i]
    ensures ParseCommand(Join([program] + args, ' ')) == Invocation(program, args)
  {
    var parts := [program] + args;
    SplitJoin(parts, ' ');
    assert parts[1..] == args;
  }

  /** The text template-literal interpolation gives an exit code. */
  function CodeText(status: ExitStatus): string {
    match status
    case Exited(code) => IntToDecimal(code)
    case Signalled => "null"
  }

  const MessagePrefix: string := "Command \""
  const MessageMiddle: string := "\" exited with code "

  /** The exit handler: anything but a zero exit code rejects, with a message
      that names the command and the code. */
  function Settle(command: string, status: ExitStatus): (o: Outcome)
    ensures o == Resolved <==> status == Exited(0)
    ensures o.Rejected? ==>
              && OccursAt(o.message, command, |MessagePrefix|)
              && EndsWith(o.message, CodeText(status))
  {
    if status != Exited(0) then
      var message := MessagePrefix + command + MessageMiddle + CodeText(status);
      assert message[|MessagePrefix|..|MessagePrefix| + |command|] == command;
      assert message[|message| - |CodeText(status)|..] == CodeText(status);
      Rejected(message)
    else
      Resolved
  }

  /** The code in a rejection message reads back as the exit code. */
  lemma RejectionNamesCode(command: string, code: nat)
    requires code != 0
    ensures var o := Settle(command, Exited(code));
            var digits := NatToDecimal(code);
            && o.Rejected?
            && o.message[|o.message| - |digits|..] == digits
            && DecimalValue(digits) == code
  {
    DecimalRoundTrip(code);
  }

  /** `runCommand(command, cwd)`, with `exitOf` standing for the operating
      system: what is spawned, and how the returned promise settles. */
  function RunCommand(command: string, cwd: string, exitOf: Spawn -> ExitStatus): (r: (Spawn, Outcome))
    ensures r.0.cwd == cwd
    ensures r.0.invocation == ParseCommand(command)
    ensures Join([r.0.invocation.program] + r.0.invocation.args, ' ') == command
    ensures ' ' !in r.0.invocation.program
    ensures forall i :: 0 <= i < |r.0.invocation.args| ==> ' ' !in r.0.invocation.args[i]
    ensures r.1 == Settle(command, exitOf(r.0))
    ensures r.1 == Resolved <==> exitOf(r.0) == Exited(0)
  {
    var spawn := Spawn(ParseCommand(command), cwd);
    (spawn, Settle(command, exitOf(spawn)))
  }

  /** The build command is spawned as the program `anchor` with the one
      argument `build`. */
  lemma BuildCommandParse()
    ensures ParseCommand("anchor build") == Invocation("anchor", ["build"])
  {
    ParseJoinedCommand("anchor", ["build"]);
    assert Join(["anchor", "build"], ' ') == "anchor build";
  }

  /** Repeated spaces give empty arguments, and an empty command an empty program. */
  lemma SplitEdgeCases()
    ensures ParseCommand("a  b") == Invocation("a", ["", "b"])
    ensures ParseCommand("") == Invocation("", [])
  {
    ParseJoinedCommand("a", ["", "b"]);
    assert Join(["a", "", "b"], ' ') == "a  b";
    ParseJoinedCommand("", []);
  }
}

=== FILE: project_name.dfy ===
/** The gate every project name passes before anything is written: the
    regular expression `^[a-z][a-z0-9_]*$`. */
module ProjectName {
  import opened Chars

  /** A character the pattern accepts after the first one. */
  predicate IsNameChar(c: char) {
    IsLower(c) || IsDigit(c) || c == '_'
  }

  /** Membership in the language of `^[a-z][a-z0-9_]*$`: a lower-case letter
      followed by any number of lower-case letters, digits and underscores. */
  predicate ValidName(s: string) {
    |s| > 0 && IsLower(s[0]) && forall i :: 1 <= i < |s| ==> IsNameChar(s[i])
  }

  /** The states of an automaton for the pattern. */
  datatype MatchState = Start | Accepting | Rejected

  function Step(st: MatchState, c: char): MatchState {
    match st
    case Start => if IsLower(c) then Accepting else Rejected
    case Accepting => if IsNameChar(c) then Accepting else Rejected
    case Rejected => Rejected
  }

  /** `/^[a-z][a-z0-9_]*$/.test(s)`, one character at a time. */
  method MatchesNamePattern(s: string) returns (ok: bool)
    ensures ok <==> ValidName(s)
  {
    var st := Start;
    var i := 0;
    while i < |s|
      invariant 0 <= i <= |s|
      invariant st == Start <==> i == 0
      invariant st == Accepting <==> ValidName(s[..i])
    {
      st := Step(st, s[i]);
      i := i + 1;
    }
    assert s[..i] == s;
    ok := st == Accepting;
  }
}

=== FILE: strings.dfy ===
/** The handful of ECMAScript string operations the command-line script relies
    on: `indexOf`, `replace` with a string pattern, `endsWith`, `split` on a
    one-character separator, and the decimal text of an integer. */
module Strings {
  import opened Chars

  /** `pat` occurs in `s` starting at index `i`. */
  predicate OccursAt(s: string, pat: string, i: int) {
    0 <= i && i + |pat| <= |s| && forall k :: 0 <= k < |pat| ==> s[i + k] == pat[k]
  }

  predicate Contains(s: string, pat: string) {
    exists i :: 0 <= i <= |s| && OccursAt(s, pat, i)
  }

  /** `i` is where `pat` occurs in `s` for the first time. */
  predicate IsFirstOccurrence(s: string, pat: string, i: int) {
    OccursAt(s, pat, i) && forall j :: 0 <= j < i ==> !OccursAt(s, pat, j)
  }

  predicate EndsWith(s: string, suffix: string) {
    |suffix| <= |s| && s[|s| - |suffix|..] == suffix
  }

  /** Occurrences in `s` past its first character are the occurrences in `s[1..]`, shifted by one. */
  lemma OccursAtTail(s: string, pat: string)
    requires |s| > 0
    ensures forall i :: 1 <= i ==> (OccursAt(s, pat, i) <==> OccursAt(s[1..], pat, i - 1))
  {
    forall i | 1 <= i
      ensures OccursAt(s, pat, i) <==> OccursAt(s[1..], pat, i - 1)
    {
    }
  }

  /** `s.indexOf(pat)`: the first index at which `pat` occurs, or -1. */
  function IndexOf(s: string, pat: string): (r: int)
    ensures r == -1 <==> !Contains(s, pat)
    ensures r != -1 ==> IsFirstOccurrence(s, pat, r)
    decreases |s|
  {
    if OccursAt(s, pat, 0) then
      0
    else if |s| == 0 then
      -1
    else
      OccursAtTail(s, pat);
      var k := IndexOf(s[1..], pat);
      if k == -1 then
        -1
      else
        assert OccursAt(s, pat, k + 1);
        k + 1
  }

  /** `s.replace(pat, "")` with a string pattern: only the first occurrence goes. */
  function RemoveFirst(s: string, pat: string): (r: string)
    ensures !Contains(s, pat) ==> r == s
    ensures forall i :: IsFirstOccurrence(s, pat, i) ==> r == s[..i] + s[i + |pat|..]
    ensures Contains(s, pat) ==> |r| == |s| - |pat|
  {
    var k := IndexOf(s, pat);
    if k == -1 then s else s[..k] + s[k + |pat|..]
  }

  /** The number of times `c` appears in `s`. */
  function Count(s: string, c: char): (n: nat)
    ensures n <= |s|
    decreases |s|
  {
    if |s| == 0 then 0
    else
      assert s == [s[0]] + s[1..];
      (if s[0] == c then 1 else 0) + Count(s[1..], c)
  }

  /** `s.split(sep)` for a one-character separator: the pieces between
      separators, empty pieces included, so never an empty list. */
  function Split(s: string, sep: char): (parts: seq<string>)
    ensures |parts| == Count(s, sep) + 1
    ensures forall i :: 0 <= i < |parts| ==> sep !in parts[i]
    decreases |s|
  {
    if |s| == 0 then
      [""]
    else
      var rest := Split(s[1..], sep);
      if s[0] == sep then [""] + rest
      else [[s[0]] + rest[0]] + rest[1..]
  }

  /** `parts.join(sep)` for a one-character separator. */
  function Join(parts: seq<string>, sep: char): string
  {
    if |parts| == 0 then ""
    else if |parts| == 1 then parts[0]
    else parts[0] + [sep] + Join(parts[1..], sep)
  }

  /** Joining a longer list puts a separator after its first piece. */
  lemma JoinCons(w: string, rest: seq<string>, sep: char)
    requires |rest| >= 1
    ensures Join([w] + rest, sep) == w + [sep] + Join(rest, sep)
  {
    assert ([w] + rest)[1..] == rest;
  }

  /** Extending the first piece extends the joined string at its front. */
  lemma JoinExtendFirst(c: char, parts: seq<string>, sep: char)
    requires |parts| >= 1
    ensures Join([[c] + parts[0]] + parts[1..], sep) == [c] + Join(parts, sep)
  {
    if |parts| > 1 {
      JoinCons([c] + parts[0], parts[1..], sep);
      JoinCons(parts[0], parts[1..], sep);
      assert [parts[0]] + parts[1..] == parts;
    }
  }

  /** Joining the pieces of a split gives back the string. */
  lemma {:induction false} JoinSplit(s: string, sep: char)
    ensures Join(Split(s, sep), sep) == s
    decreases |s|
  {
    if |s| > 0 {
      var rest := Split(s[1..], sep);
      JoinSplit(s[1..], sep);
      if s[0] == sep {
        JoinCons("", rest, sep);
      } else {
        JoinExtendFirst(s[0], rest, sep);
      }
      assert s == [s[0]] + s[1..];
    }
  }

  /** A piece without separators splits to itself. */
  lemma {:induction false} SplitWord(w: string, sep: char)
    requires sep !in w
    ensures Split(w, sep) == [w]
    decreases |w|
  {
    if |w| > 0 {
      SplitWord(w[1..], sep);
      assert [w[0]] + w[1..] == w;
    }
  }

  /** Concatenation is associative. */
  lemma AppendAssoc(a: string, b: string, c: string)
    ensures (a + b) + c == a + (b + c)
  {
  }

  /** Splitting a string that starts with a non-separator extends the first piece. */
  lemma SplitCons(u: string, sep: char)
    requires |u| > 0 && u[0] != sep
    ensures Split(u, sep) == [[u[0]] + Split(u[1..], sep)[0]] + Split(u[1..], sep)[1..]
  {
  }

  /** Splitting a string that starts with the separator puts an empty piece first. */
  lemma SplitSep(u: string, sep: char)
    requires |u| > 0 && u[0] == sep
    ensures Split(u, sep) == [""] + Split(u[1..], sep)
  {
  }

  /** A piece without separators followed by a separator contributes exactly one piece. */
  lemma {:induction false} SplitWordThenSep(w: string, sep: char, t: string)
    requires sep !in w
    ensures Split(w + [sep] + t, sep) == [w] + Split(t, sep)
    decreases |w|
  {
    var s := w + [sep] + t;
    if |w| == 0 {
      assert s[1..] == t;
    } else {
      assert s[1..] == w[1..] + [sep] + t;
      SplitWordThenSep(w[1..], sep, t);
      assert [w[0]] + w[1..] == w;
    }
  }

  /** Splitting a join of separator-free pieces gives back the pieces. */
  lemma {:induction false} SplitJoin(parts: seq<string>, sep: char)
    requires |parts| >= 1
    requires forall i :: 0 <= i < |parts| ==> sep !in parts[i]
    ensures Split(Join(parts, sep), sep) == parts
    decreases |parts|
  {
    if |parts| == 1 {
      SplitWord(parts[0], sep);
    } else {
      SplitJoin(parts[1..], sep);
      SplitWordThenSep(parts[0], sep, Join(parts[1..], sep));
      assert [parts[0]] + parts[1..] == parts;
    }
  }

  function DigitChar(d: nat): (c: char)
    requires d < 10
    ensures IsDigit(c)
    ensures c as int - '0' as int == d
  {
    ('0' as int + d) as char
  }

  /** The decimal numeral of `n`, as template-literal interpolation writes it. */
  function NatToDecimal(n: nat): (r: string)
    ensures |r| >= 1
    ensures forall i :: 0 <= i < |r| ==> IsDigit(r[i])
    ensures r[0] == '0' ==> n == 0
    decreases n
  {
    if n < 10 then [DigitChar(n)] else NatToDecimal(n / 10) + [DigitChar(n % 10)]
  }

  /** The value of a numeral. */
  function DecimalValue(s: string): nat
    requires forall i :: 0 <= i < |s| ==> IsDigit(s[i])
    decreases |s|
  {
    if |s| == 0 then 0
    else
      assert IsDigit(s[|s| - 1]);
      10 * DecimalValue(s[..|s| - 1]) + (s[|s| - 1] as int - '0' as int)
  }

  /** The numeral of `n` reads back as `n`. */
  lemma {:induction false} DecimalRoundTrip(n: nat)
    ensures DecimalValue(NatToDecimal(n)) == n
    decreases n
  {
    if n >= 10 {
      DecimalRoundTrip(n / 10);
      var r := NatToDecimal(n);
      assert r[..|r| - 1] == NatToDecimal(n / 10);
    }
  }

  /** The decimal text of an integer, with a leading `-` when it is negative. */
  function IntToDecimal(i: int): (r: string)
    ensures |r| >= 1
    ensures i < 0 <==> r[0] == '-'
  {
    if i < 0 then "-" + NatToDecimal(-i) else NatToDecimal(i)
  }
}

=== FILE: templates.dfy ===
/** The template copy (`copyTemplates`): a walk over the template directory
    that renames every entry through the template engine, recurses into
    directories, renders the content of marked files and copies the other
    files verbatim. The walk is modelled as a pure function from the source
    tree to the tree it writes. */
module Templates {
  import opened Strings

  /** The values the templates are rendered against. */
  datatype Context = Context(projectName: string, programId: string)

  /** An entry of the template directory as a typed directory listing reports
      it. `Other` is whatever is neither a directory nor a regular file: a
      symbolic link, a socket, a device. */
  datatype Entry =
    | Dir(name: string, entries: seq<Entry>)
    | File(name: string, content: string)
    | Other(name: string)

  /** An entry of the generated project. */
  datatype Node =
    | DirNode(name: string, children: seq<Node>)
    | FileNode(name: string, content: string)

  /** Compiling a template and applying it to a context. The template engine
      itself is not modelled: every property below holds for any renderer. */
  type Renderer = (string, Context) -> string

  /** The suffix that marks a file whose content is a template. */
  const Marker: string := ".hbs"

  /** The name an entry is written under: the first occurrence of the marker,
      wherever it is, removed, and the rest rendered. */
  function DestName(name: string, ctx: Context, render: Renderer): string {
    render(RemoveFirst(name, Marker), ctx)
  }

  /** Only a file whose own name ends with the marker has its content rendered. */
  predicate IsTemplated(name: string) {
    EndsWith(name, Marker)
  }

  function DestContent(name: string, content: string, ctx: Context, render: Renderer): string {
    if IsTemplated(name) then render(content, ctx) else content
  }

  /** `copyTemplates(src, dest, context)`: the entries of `dest` it produces
      from the entries of `src`, in the order the listing gives them. */
  function CopyTemplates(entries: seq<Entry>, ctx: Context, render: Renderer): (out: seq<Node>)
    ensures |out| <= |entries|
    ensures (forall i :: 0 <= i < |entries| ==> !entries[i].Other?) ==> |out| == |entries|
    decreases entries
  {
    if |entries| == 0 then
      []
    else
      var rest := CopyTemplates(entries[1..], ctx, render);
      match entries[0]
      case Dir(name, children) =>
        [DirNode(DestName(name, ctx, render), CopyTemplates(children, ctx, render))] + rest
      case File(name, content) =>
        [FileNode(DestName(name, ctx, render), DestContent(name, content, ctx, render))] + rest
      case Other(_) =>
        rest
  }

  // ---------------------------------------------------------------------------
  // Shape: one directory per directory, one file per file, nothing for the rest.

  /** A tree with names and contents erased. */
  datatype Shape = DirShape(children: seq<Shape>) | FileShape

  /** The shape the copy must have: the source's, with other entries dropped. */
  function SourceShape(entries: seq<Entry>): seq<Shape>
    decreases entries
  {
    if |entries| == 0 then
      []
    else
      match entries[0]
      case Dir(_, children) => [DirShape(SourceShape(children))] + SourceShape(entries[1..])
      case File(_, _) => [FileShape] + SourceShape(entries[1..])
      case Other(_) => SourceShape(entries[1..])
  }

  function OutputShape(nodes: seq<Node>): seq<Shape>
    decreases nodes
  {
    if |nodes| == 0 then
      []
    else
      match nodes[0]
      case DirNode(_, children) => [DirShape(OutputShape(children))] + OutputShape(nodes[1..])
      case FileNode(_, _) => [FileShape] + OutputShape(nodes[1..])
  }

  lemma OutputShapeCons(n: Node, nodes: seq<Node>)
    ensures OutputShape([n] + nodes) == OutputShape([n]) + OutputShape(nodes)
  {
    assert ([n] + nodes)[1..] == nodes;
    assert [n][1..] == [];
  }

  /** The copy has exactly the shape of the template tree: every directory
      becomes a directory holding the copy of its entries, every file one
      file, and every other entry nothing. */
  lemma {:induction false} CopyPreservesShape(entries: seq<Entry>, ctx: Context, render: Renderer)
    ensures OutputShape(CopyTemplates(entries, ctx, render)) == SourceShape(entries)
    decreases entries
  {
    if |entries| > 0 {
      var rest := CopyTemplates(entries[1..], ctx, render);
      CopyPreservesShape(entries[1..], ctx, render);
      match entries[0]
      case Dir(name, children) =>
        CopyPreservesShape(children, ctx, render);
        OutputShapeCons(DirNode(DestName(name, ctx, render), CopyTemplates(children, ctx, render)), rest);
      case File(name, content) =>
        OutputShapeCons(FileNode(DestName(name, ctx, render), DestContent(name, content, ctx, render)), rest);
      case Other(_) =>
    }
  }

  // ---------------------------------------------------------------------------
  // Listing: every directory and file, with its path, in the order written.

  /** An entry of the template tree, with the names of the directories above it. */
  datatype SourceItem =
    | SourceDir(dirs: seq<string>, name: string)
    | SourceFile(dirs: seq<string>, name: string, content: string)

  /** An entry of the generated tree: its path below the target directory. */
  datatype OutputItem =
    | OutputDir(path: seq<string>)
    | OutputFile(path: seq<string>, content: string)

  function InSourceDir(dir: string, items: seq<SourceItem>): (r: seq<SourceItem>)
    ensures |r| == |items|
  {
    seq(|items|, i requires 0 <= i < |items| => items[i].(dirs := [dir] + items[i].dirs))
  }

  function InOutputDir(dir: string, items: seq<OutputItem>): (r: seq<OutputItem>)
    ensures |r| == |items|
  {
    seq(|items|, i requires 0 <= i < |items| => items[i].(path := [dir] + items[i].path))
  }

  /** Every directory and file of the template tree, each directory before its
      entries, other entries left out. */
  function SourceItems(entries: seq<Entry>): seq<SourceItem>
    decreases entries
  {
    if |entries| == 0 then
      []
    else
      match entries[0]
      case Dir(name, children) =>
        [SourceDir([], name)] + InSourceDir(name, SourceItems(children)) + SourceItems(entries[1..])
      case File(name, content) =>
        [SourceFile([], name, content)] + SourceItems(entries[1..])
      case Other(_) =>
        SourceItems(entries[1..])
  }

  /** Every directory and file of a generated tree, each directory before its entries. */
  function OutputItems(nodes: seq<Node>): seq<OutputItem>
    decreases nodes
  {
    if |nodes| == 0 then
      []
    else
      match nodes[0]
      case DirNode(name, children) =>
        [OutputDir([name])] + InOutputDir(name, OutputItems(children)) + OutputItems(nodes[1..])
      case FileNode(name, content) =>
        [OutputFile([name], content)] + OutputItems(nodes[1..])
  }

  function DestPath(dirs: seq<string>, name: string, ctx: Context, render: Renderer): (p: seq<string>)
    ensures |p| == |dirs| + 1
  {
    seq(|dirs|, i requires 0 <= i < |dirs| => DestName(dirs[i], ctx, render)) + [DestName(name, ctx, render)]
  }

  /** What the copy must write for one item of the template tree: every name
      on its path renamed, and a file's content rendered exactly when the
      file's own name ends with the marker. */
  function Expected(item: SourceItem, ctx: Context, render: Renderer): OutputItem {
    match item
    case SourceDir(dirs, name) =>
      OutputDir(DestPath(dirs, name, ctx, render))
    case SourceFile(dirs, name, content) =>
      OutputFile(DestPath(dirs, name, ctx, render), DestContent(name, content, ctx, render))
  }

  function ExpectedItems(items: seq<SourceItem>, ctx: Context, render: Renderer): (r: seq<OutputItem>)
    ensures |r| == |items|
  {
    seq(|items|, i requires 0 <= i < |items| => Expected(items[i], ctx, render))
  }

  lemma ExpectedItemsAppend(a: seq<SourceItem>, b: seq<SourceItem>, ctx: Context, render: Renderer)
    ensures ExpectedItems(a + b, ctx, render) == ExpectedItems(a, ctx, render) + ExpectedItems(b, ctx, render)
  {
  }

  lemma ExpectedItemsInDir(dir: string, items: seq<SourceItem>, ctx: Context, render: Renderer)
    ensures ExpectedItems(InSourceDir(dir, items), ctx, render)
         == InOutputDir(DestName(dir, ctx, render), ExpectedItems(items, ctx, render))
  {
    var lhs := ExpectedItems(InSourceDir(dir, items), ctx, render);
    var rhs := InOutputDir(DestName(dir, ctx, render), ExpectedItems(items, ctx, render));
    forall i | 0 <= i < |items|
      ensures lhs[i] == rhs[i]
    {
      var dirs := items[i].dirs;
      assert DestPath([dir] + dirs, items[i].name, ctx, render)
          == [DestName(dir, ctx, render)] + DestPath(dirs, items[i].name, ctx, render);
    }
  }

  lemma OutputItemsCons(n: Node, nodes: seq<Node>)
    ensures OutputItems([n] + nodes) == OutputItems([n]) + OutputItems(nodes)
  {
    assert ([n] + nodes)[1..] == nodes;
    assert [n][1..] == [];
  }

  /** A directory's items: the directory, its renamed contents, then the rest. */
  lemma DirItemsStep(name: string, inner: seq<Node>, innerItems: seq<SourceItem>,
                     rest: seq<Node>, restItems: seq<SourceItem>, ctx: Context, render: Renderer)
    requires OutputItems(inner) == ExpectedItems(innerItems, ctx, render)
    requires OutputItems(rest) == ExpectedItems(restItems, ctx, render)
    ensures OutputItems([DirNode(DestName(name, ctx, render), inner)] + rest)
         == ExpectedItems([SourceDir([], name)] + InSourceDir(name, innerItems) + restItems, ctx, render)
  {
    var d := DestName(name, ctx, render);
    OutputItemsCons(DirNode(d, inner), rest);
    assert OutputItems([DirNode(d, inner)]) == [OutputDir([d])] + InOutputDir(d, OutputItems(inner));
    ExpectedItemsInDir(name, innerItems, ctx, render);
    ExpectedItemsAppend([SourceDir([], name)] + InSourceDir(name, innerItems), restItems, ctx, render);
    ExpectedItemsAppend([SourceDir([], name)], InSourceDir(name, innerItems), ctx, render);
    assert DestPath([], name, ctx, render) == [d];
  }

  /** A file's item: the renamed file with its content, then the rest. */
  lemma FileItemsStep(name: string, content: string, rest: seq<Node>, restItems: seq<SourceItem>,
                      ctx: Context, render: Renderer)
    requires OutputItems(rest) == ExpectedItems(restItems, ctx, render)
    ensures OutputItems([FileNode(DestName(name, ctx, render), DestContent(name, content, ctx, render))] + rest)
         == ExpectedItems([SourceFile([], name, content)] + restItems, ctx, render)
  {
    var f := FileNode(DestName(name, ctx, render), DestContent(name, content, ctx, render));
    OutputItemsCons(f, rest);
    ExpectedItemsAppend([SourceFile([], name, content)], restItems, ctx, render);
    assert DestPath([], name, ctx, render) == [DestName(name, ctx, render)];
  }

  /** The copy writes, in order, exactly one item per directory and file of
      the template tree, at the renamed path, and nothing else; the context
      is the same at every depth. */
  lemma {:induction false} CopyWritesExpectedItems(entries: seq<Entry>, ctx: Context, render: Renderer)
    ensures OutputItems(CopyTemplates(entries, ctx, render)) == ExpectedItems(SourceItems(entries), ctx, render)
    decreases entries
  {
    if |entries| > 0 {
      var rest := CopyTemplates(entries[1..], ctx, render);
      CopyWritesExpectedItems(entries[1..], ctx, render);
      match entries[0]
      case Dir(name, children) =>
        CopyWritesExpectedItems(children, ctx, render);
        DirItemsStep(name, CopyTemplates(children, ctx, render), SourceItems(children),
                     rest, SourceItems(entries[1..]), ctx, render);
      case File(name, content) =>
        FileItemsStep(name, content, rest, SourceItems(entries[1..]), ctx, render);
      case Other(_) =>
    }
  }

  /** Item by item: the i-th thing written is the i-th directory or file of
      the template tree under its renamed path; a file's content is the
      rendered source when its name ends with the marker and the source
      content, unchanged, otherwise. */
  lemma CopyWritesEachItem(entries: seq<Entry>, ctx: Context, render: Renderer)
    ensures var src := SourceItems(entries);
            var out := OutputItems(CopyTemplates(entries, ctx, render));
            && |out| == |src|
            && forall i :: 0 <= i < |src| ==>
                 && out[i].path == DestPath(src[i].dirs, src[i].name, ctx, render)
                 && (src[i].SourceDir? <==> out[i].OutputDir?)
                 && (src[i].SourceFile? && IsTemplated(src[i].name) ==>
                       out[i].content == render(src[i].content, ctx))
                 && (src[i].SourceFile? && !IsTemplated(src[i].name) ==>
                       out[i].content == src[i].content)
  {
    CopyWritesExpectedItems(entries, ctx, render);
  }

  // ---------------------------------------------------------------------------
  // The marker.

  /** Removing the first marker of `x + Marker + y`, when `x` holds no marker,
      leaves `x + y`: the marker has no overlap with itself, so no earlier
      occurrence can straddle the end of `x`. */
  lemma {:induction false} FirstMarkerRemoved(x: string, y: string)
    requires !Contains(x, Marker)
    ensures RemoveFirst(x + Marker + y, Marker) == x + y
  {
    var s := x + Marker + y;
    var n := |x|;
    assert OccursAt(s, Marker, n);
    assert s[n] == '.';
    forall j | 0 <= j < n
      ensures !OccursAt(s, Marker, j)
    {
      if j + |Marker| <= n {
        if OccursAt(s, Marker, j) {
          assert OccursAt(x, Marker, j);
        }
      } else {
        var k := n - j;
        assert s[j + k] == '.';
        assert Marker[k] != '.';
      }
    }
    assert IsFirstOccurrence(s, Marker, n);
    assert s[..n] == x;
    assert s[n + |Marker|..] == y;
  }

  /** A name with exactly one marker, at its end, loses it and is templated. */
  lemma TrailingMarker(x: string, ctx: Context, render: Renderer)
    requires !Contains(x, Marker)
    ensures DestName(x + Marker, ctx, render) == render(x, ctx)
    ensures IsTemplated(x + Marker)
  {
    FirstMarkerRemoved(x, "");
    assert x + Marker + "" == x + Marker;
    assert x + "" == x;
    assert (x + Marker)[|x|..] == Marker;
  }

  /** A name shorter than the marker cannot contain it. */
  lemma ShortNameHasNoMarker(x: string)
    requires |x| < |Marker|
    ensures !Contains(x, Marker)
  {
  }

  /** The name written for `x + ".hbs" + y`, when `x` holds no marker. */
  lemma DestNameAfterFirstMarker(x: string, y: string, ctx: Context, render: Renderer)
    requires !Contains(x, Marker)
    ensures DestName(x + Marker + y, ctx, render) == render(x + y, ctx)
  {
    FirstMarkerRemoved(x, y);
  }

  /** Only the first marker goes: `a.hbs.hbs` is written as `a.hbs` and, as
      its name ends with the marker, rendered. */
  lemma DoubleMarkerExample(ctx: Context, render: Renderer)
    ensures DestName("a.hbs.hbs", ctx, render) == render("a.hbs", ctx)
    ensures IsTemplated("a.hbs.hbs")
  {
    ShortNameHasNoMarker("a");
    DestNameAfterFirstMarker("a", Marker, ctx, render);
    assert "a" + Marker + Marker == "a.hbs.hbs";
    assert "a" + Marker == "a.hbs";
    assert "a.hbs.hbs"[5..] == Marker;
  }

  /** A marker inside the name is removed but does not make the content a
      template: `x.hbs.txt` is written as `x.txt`, verbatim. */
  lemma InnerMarkerExample(ctx: Context, render: Renderer)
    ensures DestName("x.hbs.txt", ctx, render) == render("x.txt", ctx)
    ensures !IsTemplated("x.hbs.txt")
  {
    ShortNameHasNoMarker("x");
    DestNameAfterFirstMarker("x", ".txt", ctx, render);
    assert "x" + Marker + ".txt" == "x.hbs.txt";
    assert "x" + ".txt" == "x.txt";
    assert "x.hbs.txt"[5..][1] == 't' != Marker[1];
  }

}
